=== FILE: README.md ===
# Galaxy dataset security: a Dafny model

This project models the role-based access control of Galaxy's security agent
(`lib/galaxy/security/__init__.py`), with the object-relational store taken out.
What is left are pure functions over:

- the registry of three permitted actions (`lib/galaxy/security/__init__.py:19-26`),
  taken as the only registry the code reads (see "## Left out");
- sets and lists of role ids;
- a dataset's list of permission records, each an (action, role) pair meaning
  "this role is required for this action on this dataset".

Modules, leaves first:

- `Results`: `Option` and `Result`, for the source's `None` returns and raised errors.
- `Lists`: order-preserving list filters, the source's `filter(lambda x: x in …)` shapes.
- `Registry`: the action catalogue and its lookups: `get_action`,
  `convert_permitted_action_strings` and `get_permitted_actions`.
- `Permissions`: `get_dataset_permissions`, `set_dataset_permissions` and
  `copy_dataset_permissions`, over a dataset's record list.
- `Decision`: `allow_dataset_action` and `allow_action`. The decision is proved equal
  to a policy stated over role sets.
- `Derivation`: `guess_derived_permissions_for_datasets`. Grant actions intersect the
  ancestors' roles and restrict actions unite them.
- `Sharing`: `privately_share_dataset`, over an abstract role store. The store holds
  roles by id, user-role memberships in creation order, and the next free role id.
- `Associations`: the keyword dispatchers `associate_components` and
  `get_component_associations`, as functions of the set of keywords given.
- `Library`: `check_folder_contents`, over a library/folder/dataset tree.

Behaviours of the code worth noting:

- A dataset's permissions are a list of records, so the same (action, role) pair
  can occur twice. The restrict union of `guess_derived_permissions_for_datasets`
  appends every new role of the newer list, duplicates included, because the
  filter is computed before the extend (`lib/galaxy/security/__init__.py:121`).
- `check_folder_contents` only descends into active datasets and active folders
  (lines 318 and 321); the model reads "active" as "not deleted".
- `get_permitted_actions` appends `_` to the filter before matching (lines
  332-335). So a full key such as `DATASET_ACCESS` selects no action at all.
- With an empty user list, `privately_share_dataset` never builds an
  intersection (line 258), so it reuses nothing (line 270). It creates a sharing
  role that has no members and makes that role the only access requirement
  (lines 276-282).

## Model

| member | source | states |
|---|---|---|
| Registry.NamesAreUnambiguous | lib/galaxy/security/__init__.py:19-34 | no string is the key or action name of two different registry entries, so the lookup does not depend on the dictionary's iteration order |
| Registry.GetAction | lib/galaxy/security/__init__.py:27-34 | the lookup returns `a` exactly when the name is `a`'s key or action name, and returns the default `None` when nothing matches |
| Registry.ConvertPermittedActionStrings | lib/galaxy/security/__init__.py:60-65 | an action is in the result exactly when its key is among the input strings; the result is never longer than the input |
| Registry.ConvertKeysRoundTrip | lib/galaxy/security/__init__.py:60-65 | converting the keys of any action list gives that same list back, in the same order |
| Registry.ConvertAppend | lib/galaxy/security/__init__.py:60-65 | the strings are converted one at a time: converting two lists joined is converting each and joining the results |
| Registry.ConvertIgnoresUnknown | lib/galaxy/security/__init__.py:60-65 | a string that is not a key is dropped silently, wherever it occurs in the input: before it, after it or between two parts |
| Registry.NormalisePrefix | lib/galaxy/security/__init__.py:332-333 | the prefix ends in `_`, extends the filter, and is at most one character longer; a filter already ending in `_` is returned unchanged |
| Registry.GetPermittedActions | lib/galaxy/security/__init__.py:328-336 | without a filter, the whole registry; with one, exactly the actions whose key starts with the filter when it ends in `_`, or with the filter followed by `_` otherwise. Every selected key starts with the filter text |
| Registry.PermittedActionsNormaliseIdempotent | lib/galaxy/security/__init__.py:332-335 | an already normalised filter selects the same actions as the raw one |
| Registry.PermittedActionsDatasetFamily | lib/galaxy/security/__init__.py:328-336 | the filter `DATASET` selects every registered action |
| Registry.PermittedActionsFullKeySelectsNothing | lib/galaxy/security/__init__.py:332-335 | a full key as the filter selects nothing, because of the appended `_` |
| Permissions.RolesFor | lib/galaxy/security/__init__.py:248-249 | a role is listed for an action exactly when a record pairs that action with that role |
| Permissions.GetDatasetPermissions | lib/galaxy/security/__init__.py:242-250 | every registered action is a key; each action maps to its records' roles in record order, and to `[]` when it has no records |
| Permissions.SetDatasetPermissions | lib/galaxy/security/__init__.py:224-241 | each incoming action ends up with exactly the supplied roles (an empty list clears it); every other action keeps its roles and its records |
| Permissions.CopyDatasetPermissions | lib/galaxy/security/__init__.py:251-256 | afterwards the destination's permission map equals the source's, whatever the destination held before |
| Decision.AllowAction | lib/galaxy/security/__init__.py:72-75 | without a dataset the call is an error; with a dataset it succeeds, and the answer is the set policy below |
| Decision.AllowDatasetAction | lib/galaxy/security/__init__.py:76-98 | the decision equals the set policy. Anonymous: only access, and only with no access records. User: without records, allowed iff the action is restrict-style; with records, allowed iff the required roles are a subset of the held roles |
| Decision.AnonymousOnlyOpenAccess | lib/galaxy/security/__init__.py:80-83 | an anonymous subject is allowed exactly for `DATASET_ACCESS` on a dataset with no access records |
| Decision.UnrecordedActionFollowsModel | lib/galaxy/security/__init__.py:84-87 | a user asking for an action without records is allowed exactly when the action is restrict-style |
| Decision.RecordedRolesAreConjunctive | lib/galaxy/security/__init__.py:88-98 | with records, a user is allowed exactly when holding every required role; lacking any one of them denies |
| Decision.MissingRolesIffNotSubset | lib/galaxy/security/__init__.py:92-96 | the list of required roles the user lacks is empty exactly when the required roles are a subset of the held ones |
| Decision.GrantWithoutRecordsDenied | lib/galaxy/security/__init__.py:80-98 | fail-closed: a grant action without records is denied to every subject |
| Decision.RestrictWithoutRecordsAllowed | lib/galaxy/security/__init__.py:80-98 | a restrict action without records is allowed to every subject, anonymous included |
| Decision.AllowMonotoneInRoles | lib/galaxy/security/__init__.py:88-98 | holding more roles never turns an allowed action into a denied one |
| Decision.AnonymousNoStrongerThanUser | lib/galaxy/security/__init__.py:80-98 | whatever an anonymous subject may do, every logged-in user may do |
| Derivation.Combine | lib/galaxy/security/__init__.py:116-121 | grant: the roles in both lists; restrict: the roles in either list, with the accumulated list kept as a prefix |
| Derivation.CombineGrantInNewerOrder | lib/galaxy/security/__init__.py:116-118 | grant: the combination goes through the newer list element by element. It keeps a role exactly when the accumulated list has it, in the newer list's order and with its repetitions |
| Derivation.CombineRestrictInNewerOrder | lib/galaxy/security/__init__.py:119-121 | restrict: the combination is the accumulated list followed by the newer roles it lacks, in the newer order and with their repetitions, since the filter looks only at the accumulated list |
| Derivation.Merge | lib/galaxy/security/__init__.py:112-121 | the merged map covers the actions of both sides. An action on one side only passes through unchanged. An action on both sides holds the roles of both for grant and the roles of either for restrict |
| Derivation.CombineNoDup | lib/galaxy/security/__init__.py:116-121 | combining two duplicate-free lists gives a duplicate-free list |
| Derivation.GuessDerivedPermissions | lib/galaxy/security/__init__.py:99-122 | no ancestors give the empty map; with at least one ancestor every registered action is present |
| Derivation.DeriveFromOne | lib/galaxy/security/__init__.py:99-122 | a single ancestor passes its full permission map on unchanged |
| Derivation.DeriveGrantIsIntersection | lib/galaxy/security/__init__.py:112-118 | for a grant action, a role is derived exactly when every ancestor requires it, so an ancestor without records empties it |
| Derivation.DeriveRestrictIsUnion | lib/galaxy/security/__init__.py:112-121 | for a restrict action, a role is derived exactly when some ancestor requires it |
| Derivation.DeriveNoDuplicates | lib/galaxy/security/__init__.py:112-121 | ancestors with duplicate-free records give duplicate-free derived role lists |
| Derivation.CopyPreservesDerivation | lib/galaxy/security/__init__.py:251-256 | after a copy, deriving from the destination gives what deriving from the source gives |
| Derivation.DerivedAccessImpliesAncestorAccess | lib/galaxy/security/__init__.py:99-122 | whoever may access a dataset carrying the derived permissions may access every ancestor |
| Sharing.SharedSharingRoles | lib/galaxy/security/__init__.py:258-268 | no result for an empty user list; otherwise exactly the sharing roles that all the users belong to, in the order of the last user's memberships |
| Sharing.FirstExclusive | lib/galaxy/security/__init__.py:269-275 | the position of the first candidate whose members are all among the users: every earlier candidate has an outside member, and the end of the list means none qualifies |
| Sharing.ReusableRole | lib/galaxy/security/__init__.py:258-275 | a role is reused exactly when the user list is non-empty and some sharing role has precisely these users as members. The reused role is the first of the last user's sharing roles, in membership order, whose members are exactly the users |
| Sharing.FirstExclusiveIsFirstExact | lib/galaxy/security/__init__.py:265-275 | searching the intersection for the first role without outside members finds the first role of the unfiltered list whose members are exactly the users |
| Sharing.ReuseFollowsMembershipOrder | lib/galaxy/security/__init__.py:265-275 | with two sharing roles that both have exactly the one user, the role the user joined first is reused, not the one with the lower id |
| Sharing.CreateSharingRole | lib/galaxy/security/__init__.py:276-281 | the new role has a fresh id and sharing type; it gains exactly the given users as members; existing roles and memberships are kept; the store stays consistent |
| Sharing.SharingRoleFor | lib/galaxy/security/__init__.py:269-281 | the chosen role is a sharing role with exactly the users as members: the reusable role when there is one, otherwise a role with a fresh id; existing roles and members are kept; the store changes exactly when no existing role could be reused |
| Sharing.RestrictAccessTo | lib/galaxy/security/__init__.py:282 | access then requires exactly the given role; every other action keeps its roles |
| Sharing.PrivatelyShareDataset | lib/galaxy/security/__init__.py:257-282 | access then requires exactly one sharing role, whose members are exactly the given users; other actions' records are untouched; existing roles keep their members; the store is left unchanged exactly when the user list is non-empty and a sharing role with precisely these users already exists; the guarding role is then the reusable one, and otherwise a role with a fresh id |
| Sharing.ShareGrantsAccessExactly | lib/galaxy/security/__init__.py:257-282 | after sharing, a user is allowed access through their direct roles exactly when they are one of the shared-with users |
| Sharing.ShareExcludesAnonymous | lib/galaxy/security/__init__.py:257-282 | after sharing, anonymous subjects are denied access |
| Associations.AssociateComponents | lib/galaxy/security/__init__.py:123-135 | each association is reached exactly under its key condition: user with group; user with role and no group; role with group and no user; action, dataset and role with no user and no group. Every other key set fails |
| Associations.GetComponentAssociations | lib/galaxy/security/__init__.py:293-306 | the lookup succeeds for exactly four key pairs, one per association, and any count other than two is its own error |
| Associations.DispatchersAgreeOnPairs | lib/galaxy/security/__init__.py:293-306 | on the user/group, user/role and group/role pairs, both dispatchers choose the same association |
| Library.CheckFolder | lib/galaxy/security/__init__.py:317-324 | a folder passes exactly when some dataset reachable through non-deleted entries is accessible |
| Library.AnyAccessibleFolder | lib/galaxy/security/__init__.py:321-323 | the subfolder loop succeeds exactly when some dataset visible through a non-deleted subfolder is accessible |
| Library.AnyAccessibleDataset | lib/galaxy/security/__init__.py:318-320 | the dataset loop succeeds exactly when some non-deleted dataset of the folder is accessible |
| Library.CheckFolderContents | lib/galaxy/security/__init__.py:307-326 | a library is judged by its root folder and a folder by its visible datasets; a library dataset is checked directly; any other entry is an error |
| Library.EmptyTreeHidesNothing | lib/galaxy/security/__init__.py:317-324 | a tree with no visible dataset gives false for every subject |
| Library.DeletedFolderIgnored | lib/galaxy/security/__init__.py:321-323 | adding a deleted subfolder never changes the result |

## Left out

- Persistence is not modelled: `flush()`, `delete()`, the role and association queries, and model constructors. The store is a record list, or a role map with a membership list.
- Records hold action names in the source, while the model types them by `ActionId`. So the model's permission maps are keyed by registry actions. In the source, `set_dataset_permissions` also accepts a string key: it then deletes and writes records under that string (lines 231 and 239). The presence tests of `allow_dataset_action` compare action names (lines 81 and 84), so they do not see records written under a key, and the old records under the action name stay. Once a dataset has a record under the action name, though, `get_dataset_permissions` maps key-named records to the same action through `get_action` (line 249), and their roles are then required as well (line 95). The set, copy and decision contracts hold for maps keyed by `Action` objects. Not every caller passes such a map: `history_set_default_permissions` forwards the map it was given (line 216), and it and `user_set_default_permissions` accept string keys (lines 179-180 and 203-204).
- Registry.GetPermittedActions: models the call with a filter passed as the second argument. `get_permitted_actions` is a module-level function whose first parameter is `self` (line 328). Called as `get_permitted_actions('DATASET')`, the string binds to `self` and the whole registry is returned (line 331). Called as `get_permitted_actions(filter='DATASET')`, it raises a `TypeError` because `self` has no value.
- Associations: a key set stands for the keyword arguments of one call, so an `OtherKey` name is never one of the five component names (`user`, `group`, `role`, `action`, `dataset`). The type does not enforce this, and the contracts say nothing useful about a set such as `{UserKey, OtherKey("user")}`, which no call can produce.
- `get_action` takes a `default` argument (line 27); the model fixes it to `None`, the value every call in the file uses.
- Records are typed by action. In the source, a record can name an action string outside the registry, and `get_dataset_permissions` then fails with a key error. The model cannot express such a record.
- Python dictionaries are iterated in an arbitrary order. The model uses registry order, both for lookups and for appending new records in `set_dataset_permissions`. This changes only how records of different actions interleave, never the roles of any one action.
- `associate_user_group`, `associate_user_role`, `associate_group_role` and `associate_action_dataset_role` only create and flush a row. The dispatchers therefore return which association they route to.
- `get_component_associations` returns which table it queries, not the row it finds. `components_are_associated` depends on that row and is left out.
- `user.all_roles()` is not part of this model. A subject is given as the set of role ids it holds.
- Sharing.ShareGrantsAccessExactly: stated for a user's direct role memberships. Roles reached through groups are not modelled.
- Derivation.DeriveNoDuplicates: assumes ancestors with duplicate-free records. Duplicated records propagate, as in the source.
- `create_private_user_role` and `get_private_user_role` are left out. They are a store lookup and an insert keyed by e-mail.
- `user_set_default_permissions`, `user_get_default_permissions`, `history_set_default_permissions` and `history_get_default_permissions` are left out. They are row bookkeeping over the user and history lifecycle.
- `set_entity_role_associations` is left out. It is bulk membership replacement on the store, outside the decision and derivation logic.
- The abstract `RBACAgent` methods that raise placeholder strings are left out. Errors are result values.
- `get_actions` is represented by the constant list of all actions.
- The code reads three registries, and the model takes all of them to be the three-entry registry of lines 19-26. `get_dataset_permissions` builds its blank map from `Dataset.permitted_actions` (line 246), which is defined outside this file. `get_action` reads the agent's `permitted_actions`, which the `GalaxyRBACAgent` constructor may replace (lines 68-71). `get_permitted_actions` reads the class attribute (lines 331 and 335). `Permissions.GetDatasetPermissions` (every registered action is a key) and `Permissions.CopyDatasetPermissions` (the destination ends with the source's map whatever it held before) rest on this assumption.
- Associations.GetComponentAssociations: the count check at line 294 is a Python `assert`, which `python -O` removes. Without it, a call with three keys such as `user`, `group` and `role` is routed to the user-group association instead of failing. The model keeps the check, as `WrongComponentCount`.
- Unwrapping a dataset association to its `.dataset` is represented by passing the dataset itself. In the library tree, it is the `dataset` field of a library dataset.
- `check_folder_contents` stops at the first accessible dataset. Being a pure function, the model states only the value it returns.
- Sharing role ids come from a counter in the store, standing in for the database's id allocation. `PrivatelyShareDataset` therefore requires a consistent store: every membership names an existing role, and every role id is below the counter.
- Logging is left out.

=== FILE: associations.dfy ===
/** The keyword dispatchers `associate_components` and
    `get_component_associations`: which association a call is routed to,
    decided only by which keyword arguments are present. */
module Associations {
  import opened Results

  /** A keyword argument name; any name other than the five components is
      kept as `OtherKey`, since it still counts towards the argument count.
      A key set stands for the keywords of one call, so an `OtherKey` name is
      never `user`, `group`, `role`, `action` or `dataset`. */
  datatype Component = UserKey | GroupKey | RoleKey | ActionKey | DatasetKey | OtherKey(name: string)

  datatype Association = UserGroup | UserRole | GroupRole | ActionDatasetRole

  datatype AssociationError =
    | InvalidAssociationRequest  // no route for the given components
    | WrongComponentCount        // the lookup's assertion of exactly two components

  /** `associate_components`: a user with a group or a role comes first; then
      a role with a group; then an action, dataset and role; anything else
      fails. Stated per outcome: an action/dataset/role association is only
      reached without a user key, since a user with a role is routed to the
      user-role association first, and extra keys never hurt. */
  function AssociateComponents(keys: set<Component>): (r: Result<Association, AssociationError>)
    ensures r == Ok(UserGroup) <==> UserKey in keys && GroupKey in keys
    ensures r == Ok(UserRole) <==> UserKey in keys && GroupKey !in keys && RoleKey in keys
    ensures r == Ok(GroupRole) <==> UserKey !in keys && GroupKey in keys && RoleKey in keys
    ensures r == Ok(ActionDatasetRole)
        <==> UserKey !in keys && GroupKey !in keys && RoleKey in keys && ActionKey in keys && DatasetKey in keys
    ensures r.Err?
        <==> !(UserKey in keys && (GroupKey in keys || RoleKey in keys))
             && !(RoleKey in keys && (GroupKey in keys || (ActionKey in keys && DatasetKey in keys)))
  {
    if UserKey in keys && GroupKey in keys then Ok(UserGroup)
    else if UserKey in keys && RoleKey in keys then Ok(UserRole)
    else if UserKey !in keys && RoleKey in keys && GroupKey in keys then Ok(GroupRole)
    else if ActionKey in keys && DatasetKey in keys && RoleKey in keys then Ok(ActionDatasetRole)
    else Err(InvalidAssociationRequest)
  }

  /** Two distinct members of a two-element set are all of it. */
  lemma PairIsWhole(keys: set<Component>, x: Component, y: Component)
    requires |keys| == 2 && x in keys && y in keys && x != y
    ensures keys == {x, y}
  {
    var rest := keys - {x, y};
    assert keys == rest + {x, y};
    assert |rest + {x, y}| == |rest| + 2;
  }

  /** In a two-element set, any two distinct members named are all of it. */
  lemma PairsAreWhole(keys: set<Component>)
    ensures |keys| == 2 && DatasetKey in keys && ActionKey in keys ==> keys == {DatasetKey, ActionKey}
    ensures |keys| == 2 && UserKey in keys && GroupKey in keys ==> keys == {UserKey, GroupKey}
    ensures |keys| == 2 && UserKey in keys && RoleKey in keys ==> keys == {UserKey, RoleKey}
    ensures |keys| == 2 && GroupKey in keys && RoleKey in keys ==> keys == {GroupKey, RoleKey}
  {
    if |keys| == 2 {
      if DatasetKey in keys && ActionKey in keys { PairIsWhole(keys, DatasetKey, ActionKey); }
      if UserKey in keys && GroupKey in keys { PairIsWhole(keys, UserKey, GroupKey); }
      if UserKey in keys && RoleKey in keys { PairIsWhole(keys, UserKey, RoleKey); }
      if GroupKey in keys && RoleKey in keys { PairIsWhole(keys, GroupKey, RoleKey); }
    }
  }

  /** `get_component_associations`: exactly two components must be given;
      then dataset with action, user with group, user with role, or group
      with role select an association table; anything else fails. So the
      lookup accepts exactly four key pairs, one per association. */
  function GetComponentAssociations(keys: set<Component>): (r: Result<Association, AssociationError>)
    ensures r == Ok(ActionDatasetRole) <==> keys == {DatasetKey, ActionKey}
    ensures r == Ok(UserGroup) <==> keys == {UserKey, GroupKey}
    ensures r == Ok(UserRole) <==> keys == {UserKey, RoleKey}
    ensures r == Ok(GroupRole) <==> keys == {GroupKey, RoleKey}
    ensures r == Err(WrongComponentCount) <==> |keys| != 2
  {
    PairsAreWhole(keys);
    if |keys| != 2 then Err(WrongComponentCount)
    else if DatasetKey in keys then
      if ActionKey in keys then Ok(ActionDatasetRole) else Err(InvalidAssociationRequest)
    else if UserKey in keys then
      if GroupKey in keys then Ok(UserGroup)
      else if RoleKey in keys then Ok(UserRole)
      else Err(InvalidAssociationRequest)
    else if GroupKey in keys && RoleKey in keys then Ok(GroupRole)
    else Err(InvalidAssociationRequest)
  }

  /** Both dispatchers agree on the four two-component requests they share,
      except that the action/dataset pair is only a lookup: creating that
      association also needs the role. */
  lemma DispatchersAgreeOnPairs(keys: set<Component>)
    requires keys == {UserKey, GroupKey} || keys == {UserKey, RoleKey} || keys == {GroupKey, RoleKey}
    ensures AssociateComponents(keys) == GetComponentAssociations(keys)
  {
  }
}

=== FILE: decision.dfy ===
/** The decision engine: `allow_action` and `allow_dataset_action`. */
module Decision {
  import opened Results
  import opened Registry
  import opened Lists
  import opened Permissions

  /** Who asks: nobody logged in, or a user holding a set of role ids
      (`user.all_roles()`). */
  datatype Subject = Anonymous | User(roles: set<RoleId>)

  /** `allow_action` raises unless a dataset is supplied. */
  datatype DecisionError = NoValidCheck

  /** The actions the dataset has records for, in record order. */
  function RecordActions(recs: seq<Record>): (acts: seq<ActionId>)
    ensures forall a :: a in acts <==> RolesFor(recs, a) != []
    decreases |recs|
  {
    if |recs| == 0 then []
    else
      var rest := RecordActions(recs[1..]);
      assert forall a :: RolesFor(recs, a) == (if recs[0].action == a then [recs[0].role] else []) + RolesFor(recs[1..], a);
      [recs[0].action] + rest
  }

  /** The access policy stated over role sets, independently of how the
      records are scanned. */
  ghost predicate Policy(s: Subject, a: ActionId, d: Dataset) {
    var required := RequiredRoles(d, a);
    match s
    case Anonymous => a == Access && required == {}
    case User(held) => if required == {} then Info(a).model == Restrict else required <= held
  }

  /** `allow_dataset_action`. Anonymous subjects only get `DATASET_ACCESS`,
      and only on datasets without access records; a user asking for an
      action the dataset has no records for is allowed exactly when the
      action is restrict-style; otherwise the user must hold every role the
      records list. Every other path denies. */
  function AllowDatasetAction(s: Subject, a: ActionId, d: Dataset): (ok: bool)
    ensures ok <==> Policy(s, a, d)
  {
    RecordedIffRequired(d, a);
    match s
    case Anonymous =>
      a == Access && a !in RecordActions(d.records)
    case User(held) =>
      if a !in RecordActions(d.records) then Info(a).model == Restrict
      else
        var perms := GetDatasetPermissions(d);
        RequiredRolesAreRolesFor(d, a);
        MissingRolesIffNotSubset(perms[a], held);
        a in perms && Drop(perms[a], held) == []
  }

  /** `allow_action`: only a dataset target has a decision procedure. */
  function AllowAction(s: Subject, a: ActionId, target: Option<Dataset>): (r: Result<bool, DecisionError>)
    ensures target.None? <==> r.Err?
    ensures target.Some? ==> r.Ok? && (r.value <==> Policy(s, a, target.value))
  {
    match target
    case None => Err(NoValidCheck)
    case Some(d) => Ok(AllowDatasetAction(s, a, d))
  }

  /** The dataset has records for `a` exactly when it requires some role. */
  lemma RecordedIffRequired(d: Dataset, a: ActionId)
    ensures a in RecordActions(d.records) <==> RequiredRoles(d, a) != {}
  {
    RequiredRolesAreRolesFor(d, a);
    var roles := RolesFor(d.records, a);
    if roles != [] {
      assert roles[0] in Elems(roles);
    }
  }

  /** The source's emptiness test on the missing roles is subset inclusion. */
  lemma MissingRolesIffNotSubset(required: seq<RoleId>, held: set<RoleId>)
    ensures Drop(required, held) == [] <==> Elems(required) <= held
  {
    var missing := Drop(required, held);
    if missing != [] {
      assert missing[0] in missing;
    }
  }

  /** Anonymous subjects: allowed exactly for `DATASET_ACCESS` on a dataset
      with no access records. */
  lemma AnonymousOnlyOpenAccess(a: ActionId, d: Dataset)
    ensures AllowDatasetAction(Anonymous, a, d) <==> a == Access && RequiredRoles(d, a) == {}
  {
  }

  /** A logged-in user asking for an action the dataset has no records for
      is allowed exactly when the action is restrict-style. */
  lemma UnrecordedActionFollowsModel(held: set<RoleId>, a: ActionId, d: Dataset)
    requires RequiredRoles(d, a) == {}
    ensures AllowDatasetAction(User(held), a, d) <==> Info(a).model == Restrict
  {
  }

  /** With records present, the listed roles are a conjunction: the user is
      allowed exactly when holding all of them, so missing any one denies. */
  lemma RecordedRolesAreConjunctive(held: set<RoleId>, a: ActionId, d: Dataset)
    requires RequiredRoles(d, a) != {}
    ensures AllowDatasetAction(User(held), a, d) <==> RequiredRoles(d, a) <= held
    ensures forall r :: r in RequiredRoles(d, a) && r !in held ==> !AllowDatasetAction(User(held), a, d)
  {
  }

  /** Fail-closed for grant actions: without records nobody, logged in or
      not, is allowed. */
  lemma GrantWithoutRecordsDenied(s: Subject, a: ActionId, d: Dataset)
    requires Info(a).model == Grant && RequiredRoles(d, a) == {}
    ensures !AllowDatasetAction(s, a, d)
  {
  }

  /** Open by default for restrict actions: without records everybody,
      anonymous included, is allowed (the only restrict action is
      `DATASET_ACCESS`). */
  lemma RestrictWithoutRecordsAllowed(s: Subject, a: ActionId, d: Dataset)
    requires Info(a).model == Restrict && RequiredRoles(d, a) == {}
    ensures AllowDatasetAction(s, a, d)
  {
  }

  /** Holding more roles never loses an action. */
  lemma AllowMonotoneInRoles(held: set<RoleId>, more: set<RoleId>, a: ActionId, d: Dataset)
    requires held <= more
    ensures AllowDatasetAction(User(held), a, d) ==> AllowDatasetAction(User(more), a, d)
  {
  }

  /** For a restrict action, fewer required roles never make access harder. */
  lemma FewerRestrictionsNoHarder(s: Subject, a: ActionId, strict: Dataset, loose: Dataset)
    requires Info(a).model == Restrict
    requires RequiredRoles(loose, a) <= RequiredRoles(strict, a)
    requires AllowDatasetAction(s, a, strict)
    ensures AllowDatasetAction(s, a, loose)
  {
  }

  /** Whatever an anonymous subject may do, every logged-in user may do. */
  lemma AnonymousNoStrongerThanUser(held: set<RoleId>, a: ActionId, d: Dataset)
    ensures AllowDatasetAction(Anonymous, a, d) ==> AllowDatasetAction(User(held), a, d)
  {
  }
}

=== FILE: derivation.dfy ===
/** `guess_derived_permissions_for_datasets`: the permissions an output
    dataset inherits from the datasets it was derived from. */
module Derivation {
  import opened Registry
  import opened Lists
  import opened Permissions
  import opened Decision

  /** Combines the accumulated roles of `a` with one more ancestor's roles:
      grant actions keep the newer list's roles that were already required
      (an intersection in the newer order); restrict actions append the newer
      roles not yet present (a union). */
  function Combine(a: ActionId, acc: seq<RoleId>, roles: seq<RoleId>): (r: seq<RoleId>)
    ensures Info(a).model == Grant ==> forall x :: x in r <==> x in acc && x in roles
    ensures Info(a).model == Restrict ==> forall x :: x in r <==> x in acc || x in roles
    ensures Info(a).model == Restrict ==> acc <= r
  {
    match Info(a).model
    case Grant => Keep(roles, Elems(acc))
    case Restrict => acc + Drop(roles, Elems(acc))
  }

  /** Combining duplicate-free lists gives a duplicate-free list. */
  lemma CombineNoDup(a: ActionId, acc: seq<RoleId>, roles: seq<RoleId>)
    requires NoDup(acc) && NoDup(roles)
    ensures NoDup(Combine(a, acc, roles))
  {
    if Info(a).model == Restrict {
      NoDupAppend(acc, Drop(roles, Elems(acc)));
    }
  }

  /** For a grant action the combination follows the newer list element by
      element: each newer role that was already required is kept, in the
      newer order and with its repetitions. */
  lemma CombineGrantInNewerOrder(a: ActionId, acc: seq<RoleId>, xs: seq<RoleId>, ys: seq<RoleId>, x: RoleId)
    requires Info(a).model == Grant
    ensures Combine(a, acc, xs + ys) == Combine(a, acc, xs) + Combine(a, acc, ys)
    ensures Combine(a, acc, [x]) == if x in acc then [x] else []
  {
    var one: seq<RoleId> := [x];
    assert one[1..] == [];
    KeepAppend(xs, ys, Elems(acc));
  }

  /** For a restrict action the combination appends each newer role that is
      not in the accumulated list, in order and with its repetitions, since
      the filter looks only at the accumulated list. */
  lemma CombineRestrictInNewerOrder(a: ActionId, acc: seq<RoleId>, xs: seq<RoleId>, ys: seq<RoleId>, x: RoleId)
    requires Info(a).model == Restrict
    ensures Combine(a, acc, xs + ys) == Combine(a, acc, xs) + Combine(a, acc, ys)[|acc|..]
    ensures Combine(a, acc, [x]) == acc + if x in acc then [] else [x]
  {
    var one: seq<RoleId> := [x];
    assert one[1..] == [];
    DropAppend(xs, ys, Elems(acc));
    var tail := Drop(ys, Elems(acc));
    assert (acc + tail)[|acc|..] == tail;
  }

  /** One step of the ancestor loop: actions new to the accumulator are
      taken as they are, actions already present are combined. */
  function Merge(perms: PermissionMap, these: PermissionMap): (r: PermissionMap)
    ensures r.Keys == perms.Keys + these.Keys
    ensures forall a :: a in perms && a !in these ==> r[a] == perms[a]
    ensures forall a :: a !in perms && a in these ==> r[a] == these[a]
    ensures forall a, x :: a in perms && a in these && Info(a).model == Grant ==>
              (x in r[a] <==> x in perms[a] && x in these[a])
    ensures forall a, x :: a in perms && a in these && Info(a).model == Restrict ==>
              (x in r[a] <==> x in perms[a] || x in these[a])
  {
    map a | a in perms.Keys + these.Keys ::
      if a !in these then perms[a]
      else if a !in perms then these[a]
      else Combine(a, perms[a], these[a])
  }

  /** The ancestor loop, folded left: no ancestors give the empty map, and
      from the first ancestor on every registered action is present. */
  function GuessDerivedPermissions(ds: seq<Dataset>): (perms: PermissionMap)
    ensures |ds| == 0 ==> perms == map[]
    ensures |ds| > 0 ==> perms.Keys == AllActionSet
    decreases |ds|
  {
    if |ds| == 0 then map[]
    else Merge(GuessDerivedPermissions(ds[..|ds| - 1]), GetDatasetPermissions(ds[|ds| - 1]))
  }

  /** A single ancestor passes its permission map on unchanged. */
  lemma DeriveFromOne(d: Dataset)
    ensures GuessDerivedPermissions([d]) == GetDatasetPermissions(d)
  {
    assert [d][..0] == [];
    MergeIntoEmpty(GetDatasetPermissions(d));
  }

  /** The first step of the loop takes every action as it is. */
  lemma MergeIntoEmpty(these: PermissionMap)
    ensures Merge(map[], these) == these
  {
    var m := Merge(map[], these);
    assert m.Keys == these.Keys;
    forall a | a in m ensures m[a] == these[a] { }
  }

  /** The value of one action after the last step of the loop. */
  lemma DeriveStep(ds: seq<Dataset>, a: ActionId)
    requires |ds| > 1
    ensures GuessDerivedPermissions(ds)[a]
         == Combine(a, GuessDerivedPermissions(ds[..|ds| - 1])[a], RolesFor(ds[|ds| - 1].records, a))
  {
    AllRegistered(a);
  }

  lemma DeriveFirst(ds: seq<Dataset>, a: ActionId)
    requires |ds| == 1
    ensures GuessDerivedPermissions(ds)[a] == RolesFor(ds[0].records, a)
  {
    assert ds == [ds[0]];
    DeriveFromOne(ds[0]);
    AllRegistered(a);
  }

  /** Every ancestor requires `r` for `a`. */
  ghost predicate RequiredByAll(ds: seq<Dataset>, a: ActionId, r: RoleId) {
    forall i :: 0 <= i < |ds| ==> Record(a, r) in ds[i].records
  }

  /** Some ancestor requires `r` for `a`. */
  ghost predicate RequiredBySome(ds: seq<Dataset>, a: ActionId, r: RoleId) {
    exists i :: 0 <= i < |ds| && Record(a, r) in ds[i].records
  }

  lemma RequiredSnoc(ds: seq<Dataset>, a: ActionId, r: RoleId)
    requires |ds| > 0
    ensures RequiredByAll(ds, a, r)
        <==> RequiredByAll(ds[..|ds| - 1], a, r) && Record(a, r) in ds[|ds| - 1].records
    ensures RequiredBySome(ds, a, r)
        <==> RequiredBySome(ds[..|ds| - 1], a, r) || Record(a, r) in ds[|ds| - 1].records
  {
    var init := ds[..|ds| - 1];
    assert forall i :: 0 <= i < |init| ==> init[i] == ds[i];
    if RequiredBySome(ds, a, r) {
      var i :| 0 <= i < |ds| && Record(a, r) in ds[i].records;
      if i < |init| {
        assert Record(a, r) in init[i].records;
      }
    }
  }

  /** With one ancestor, requiring a role everywhere and somewhere agree
      with the ancestor's own records. */
  lemma DeriveBase(ds: seq<Dataset>, a: ActionId, r: RoleId)
    requires |ds| == 1
    ensures r in GuessDerivedPermissions(ds)[a] <==> RequiredByAll(ds, a, r)
    ensures r in GuessDerivedPermissions(ds)[a] <==> RequiredBySome(ds, a, r)
  {
    DeriveFirst(ds, a);
    RequiredSnoc(ds, a, r);
  }

  /** Grant actions: the derived dataset requires exactly the roles every
      ancestor requires. */
  lemma {:induction false} DeriveGrantIsIntersection(ds: seq<Dataset>, a: ActionId, r: RoleId)
    requires |ds| > 0 && Info(a).model == Grant
    ensures r in GuessDerivedPermissions(ds)[a] <==> RequiredByAll(ds, a, r)
    decreases |ds|
  {
    if |ds| == 1 {
      DeriveBase(ds, a, r);
    } else {
      var init := ds[..|ds| - 1];
      var last := ds[|ds| - 1];
      DeriveGrantIsIntersection(init, a, r);
      var acc := GuessDerivedPermissions(init)[a];
      var roles := RolesFor(last.records, a);
      DeriveStep(ds, a);
      assert r in GuessDerivedPermissions(ds)[a] <==> r in acc && r in roles;
      RequiredSnoc(ds, a, r);
    }
  }

  /** Restrict actions: the derived dataset requires exactly the roles some
      ancestor requires. */
  lemma {:induction false} DeriveRestrictIsUnion(ds: seq<Dataset>, a: ActionId, r: RoleId)
    requires |ds| > 0 && Info(a).model == Restrict
    ensures r in GuessDerivedPermissions(ds)[a] <==> RequiredBySome(ds, a, r)
    decreases |ds|
  {
    if |ds| == 1 {
      DeriveBase(ds, a, r);
    } else {
      var init := ds[..|ds| - 1];
      var last := ds[|ds| - 1];
      DeriveRestrictIsUnion(init, a, r);
      var acc := GuessDerivedPermissions(init)[a];
      var roles := RolesFor(last.records, a);
      DeriveStep(ds, a);
      assert r in GuessDerivedPermissions(ds)[a] <==> r in acc || r in roles;
      RequiredSnoc(ds, a, r);
    }
  }

  /** Ancestors whose records hold no duplicate give derived lists without
      duplicates. */
  lemma {:induction false} DeriveNoDuplicates(ds: seq<Dataset>, a: ActionId)
    requires |ds| > 0
    requires forall i :: 0 <= i < |ds| ==> NoDup(ds[i].records)
    ensures NoDup(GuessDerivedPermissions(ds)[a])
    decreases |ds|
  {
    var last := ds[|ds| - 1];
    RolesForNoDup(last.records, a);
    if |ds| == 1 {
      DeriveFirst(ds, a);
    } else {
      var init := ds[..|ds| - 1];
      assert forall i :: 0 <= i < |init| ==> NoDup(init[i].records) by {
        forall i | 0 <= i < |init| ensures NoDup(init[i].records) {
          assert init[i] == ds[i];
        }
      }
      DeriveNoDuplicates(init, a);
      var acc := GuessDerivedPermissions(init)[a];
      var roles := RolesFor(last.records, a);
      CombineNoDup(a, acc, roles);
      DeriveStep(ds, a);
    }
  }

  /** After copying `src` onto `dst`, deriving from `dst` gives what deriving
      from `src` gives. */
  lemma CopyPreservesDerivation(src: Dataset, dst: Dataset)
    ensures GuessDerivedPermissions([CopyDatasetPermissions(src, dst)]) == GuessDerivedPermissions([src])
  {
    DeriveFromOne(src);
    DeriveFromOne(CopyDatasetPermissions(src, dst));
  }

  /** The dataset a derivation produces: a fresh dataset with the derived
      permissions written onto it. */
  function DerivedDataset(ds: seq<Dataset>): (d: Dataset)
    requires |ds| > 0
    ensures forall a :: RolesFor(d.records, a) == GuessDerivedPermissions(ds)[a]
  {
    forall a ensures a in GuessDerivedPermissions(ds) { AllRegistered(a); }
    SetDatasetPermissions(Dataset([]), GuessDerivedPermissions(ds))
  }

  /** Every access restriction of an ancestor is derived. */
  lemma AncestorRestrictionsInherited(ds: seq<Dataset>, i: nat)
    requires 0 <= i < |ds|
    ensures RequiredRoles(ds[i], Access) <= Elems(GuessDerivedPermissions(ds)[Access])
  {
    forall r | r in RequiredRoles(ds[i], Access)
      ensures r in GuessDerivedPermissions(ds)[Access]
    {
      var x :| x in ds[i].records && x.action == Access && x.role == r;
      assert Record(Access, r) in ds[i].records;
      DeriveRestrictIsUnion(ds, Access, r);
    }
  }

  /** Access to a derived dataset is never looser than access to its
      ancestors: whoever may access the output may access every input. */
  lemma DerivedAccessImpliesAncestorAccess(ds: seq<Dataset>, s: Subject, i: nat)
    requires 0 <= i < |ds|
    requires AllowDatasetAction(s, Access, DerivedDataset(ds))
    ensures AllowDatasetAction(s, Access, ds[i])
  {
    var d := DerivedDataset(ds);
    RequiredRolesAreRolesFor(d, Access);
    AncestorRestrictionsInherited(ds, i);
    FewerRestrictionsNoHarder(s, Access, d, ds[i]);
  }
}

=== FILE: library.dfy ===
/** `check_folder_contents`: whether a library, folder or library dataset
    holds anything the subject may access. */
module Library {
  import opened Results
  import opened Registry
  import opened Permissions
  import opened Decision

  /** A library dataset association, wrapping the dataset it points at. */
  datatype LibraryDataset = LibraryDataset(deleted: bool, dataset: Dataset)

  datatype Folder = Folder(deleted: bool, datasets: seq<LibraryDataset>, folders: seq<Folder>)

  /** What the check can be given; `Unsupported` stands for any other
      object, which the source rejects. */
  datatype Entry =
    | LibraryEntry(rootFolder: Folder)
    | FolderEntry(folder: Folder)
    | DatasetEntry(item: LibraryDataset)
    | Unsupported

  datatype EntryError = IllegalEntry

  /** Every dataset reachable through active entries, depth first: the
      folder's own active datasets, then those of each active subfolder. */
  function VisibleDatasets(f: Folder): seq<Dataset>
    decreases f, 1
  {
    ActiveDatasets(f.datasets) + VisibleInFolders(f.folders)
  }

  function ActiveDatasets(items: seq<LibraryDataset>): seq<Dataset>
    decreases |items|
  {
    if |items| == 0 then []
    else (if items[0].deleted then [] else [items[0].dataset]) + ActiveDatasets(items[1..])
  }

  function VisibleInFolders(fs: seq<Folder>): seq<Dataset>
    decreases fs, 0
  {
    if |fs| == 0 then []
    else (if fs[0].deleted then [] else VisibleDatasets(fs[0])) + VisibleInFolders(fs[1..])
  }

  /** Some dataset of the list is accessible. */
  ghost predicate SomeAccessible(s: Subject, ds: seq<Dataset>) {
    exists i :: 0 <= i < |ds| && AllowDatasetAction(s, Access, ds[i])
  }

  lemma SomeAccessibleAppend(s: Subject, xs: seq<Dataset>, ys: seq<Dataset>)
    ensures SomeAccessible(s, xs + ys) <==> SomeAccessible(s, xs) || SomeAccessible(s, ys)
  {
    if SomeAccessible(s, xs + ys) {
      var i :| 0 <= i < |xs + ys| && AllowDatasetAction(s, Access, (xs + ys)[i]);
      if i >= |xs| {
        assert (xs + ys)[i] == ys[i - |xs|];
      }
    }
    if SomeAccessible(s, ys) {
      var i :| 0 <= i < |ys| && AllowDatasetAction(s, Access, ys[i]);
      assert (xs + ys)[|xs| + i] == ys[i];
    }
    if SomeAccessible(s, xs) {
      var i :| 0 <= i < |xs| && AllowDatasetAction(s, Access, xs[i]);
      assert (xs + ys)[i] == xs[i];
    }
  }

  /** The active datasets of a list, scanned in order until one is
      accessible: it succeeds exactly when some active dataset is. */
  function AnyAccessibleDataset(s: Subject, items: seq<LibraryDataset>): (found: bool)
    ensures found <==> SomeAccessible(s, ActiveDatasets(items))
    decreases |items|
  {
    if |items| == 0 then false
    else
      var head := if items[0].deleted then [] else [items[0].dataset];
      SomeAccessibleAppend(s, head, ActiveDatasets(items[1..]));
      assert !items[0].deleted ==> head[0] == items[0].dataset;
      (!items[0].deleted && AllowDatasetAction(s, Access, items[0].dataset))
      || AnyAccessibleDataset(s, items[1..])
  }

  /** A folder: its active datasets first, then its active subfolders. It
      passes exactly when some dataset reachable through active entries is
      accessible, so a tree without one gives false. */
  function CheckFolder(s: Subject, f: Folder): (found: bool)
    ensures found <==> SomeAccessible(s, VisibleDatasets(f))
    decreases f, 1
  {
    SomeAccessibleAppend(s, ActiveDatasets(f.datasets), VisibleInFolders(f.folders));
    AnyAccessibleDataset(s, f.datasets) || AnyAccessibleFolder(s, f.folders)
  }

  /** The active subfolders of a list, scanned in order until one holds an
      accessible dataset. */
  function AnyAccessibleFolder(s: Subject, fs: seq<Folder>): (found: bool)
    ensures found <==> SomeAccessible(s, VisibleInFolders(fs))
    decreases fs, 0
  {
    if |fs| == 0 then false
    else
      var head := if fs[0].deleted then [] else VisibleDatasets(fs[0]);
      SomeAccessibleAppend(s, head, VisibleInFolders(fs[1..]));
      (!fs[0].deleted && CheckFolder(s, fs[0])) || AnyAccessibleFolder(s, fs[1..])
  }

  /** `check_folder_contents` on any entry: a library delegates to its root
      folder, a folder is searched, a library dataset is checked directly,
      and any other object is an error. */
  function CheckFolderContents(s: Subject, e: Entry): (r: Result<bool, EntryError>)
    ensures e.Unsupported? <==> r.Err?
    ensures e.LibraryEntry? ==> (r.value <==> SomeAccessible(s, VisibleDatasets(e.rootFolder)))
    ensures e.FolderEntry? ==> (r.value <==> SomeAccessible(s, VisibleDatasets(e.folder)))
    ensures e.DatasetEntry? ==> r.value == AllowDatasetAction(s, Access, e.item.dataset)
  {
    match e
    case LibraryEntry(root) => Ok(CheckFolder(s, root))
    case FolderEntry(f) => Ok(CheckFolder(s, f))
    case DatasetEntry(item) => Ok(AllowDatasetAction(s, Access, item.dataset))
    case Unsupported => Err(IllegalEntry)
  }

  /** A tree with no active dataset anywhere is empty for every subject. */
  lemma EmptyTreeHidesNothing(s: Subject, f: Folder)
    requires VisibleDatasets(f) == []
    ensures !CheckFolder(s, f)
  {
  }

  /** Deleted folders are skipped whatever they contain. */
  lemma DeletedFolderIgnored(s: Subject, f: Folder, g: Folder)
    requires g.deleted
    ensures CheckFolder(s, Folder(f.deleted, f.datasets, [g] + f.folders)) == CheckFolder(s, f)
  {
    assert ([g] + f.folders)[1..] == f.folders;
  }
}

=== FILE: lists.dfy ===
/** Order-preserving list filters, the shapes `filter(lambda x: x in s, xs)`
    and `filter(lambda x: x not in s, xs)` take in the security module. */
module Lists {

  /** The elements of a list, as a set. */
  function Elems<T>(xs: seq<T>): set<T> {
    set x | x in xs
  }

  /** No element occurs twice. */
  predicate NoDup<T(==)>(xs: seq<T>) {
    forall i, j | 0 <= i < j < |xs| :: xs[i] != xs[j]
  }

  /** The elements of `xs` that belong to `s`, in their original order. */
  function Keep<T(==,!new)>(xs: seq<T>, s: set<T>): (r: seq<T>)
    ensures forall x :: x in r <==> x in xs && x in s
    ensures |r| <= |xs|
    ensures NoDup(xs) ==> NoDup(r)
    decreases |xs|
  {
    if |xs| == 0 then []
    else if xs[0] in s then
      var rest := Keep(xs[1..], s);
      assert NoDup(xs) ==> xs[0] !in xs[1..];
      [xs[0]] + rest
    else Keep(xs[1..], s)
  }

  /** The elements of `xs` that do not belong to `s`, in their original order. */
  function Drop<T(==,!new)>(xs: seq<T>, s: set<T>): (r: seq<T>)
    ensures forall x :: x in r <==> x in xs && x !in s
    ensures |r| <= |xs|
    ensures NoDup(xs) ==> NoDup(r)
    decreases |xs|
  {
    if |xs| == 0 then []
    else if xs[0] !in s then
      var rest := Drop(xs[1..], s);
      assert NoDup(xs) ==> xs[0] !in xs[1..];
      [xs[0]] + rest
    else Drop(xs[1..], s)
  }

  /** Appending two duplicate-free lists with no common element keeps the
      result duplicate-free. */
  lemma NoDupAppend<T>(xs: seq<T>, ys: seq<T>)
    requires NoDup(xs) && NoDup(ys)
    requires forall y :: y in ys ==> y !in xs
    ensures NoDup(xs + ys)
  {
    forall i, j | 0 <= i < j < |xs + ys|
      ensures (xs + ys)[i] != (xs + ys)[j]
    {
      if j < |xs| {
        assert (xs + ys)[i] == xs[i] && (xs + ys)[j] == xs[j];
      } else if i < |xs| {
        assert (xs + ys)[i] == xs[i] && (xs + ys)[j] == ys[j - |xs|];
        assert ys[j - |xs|] in ys;
      } else {
        assert (xs + ys)[i] == ys[i - |xs|] && (xs + ys)[j] == ys[j - |xs|];
      }
    }
  }

  /** Filtering works element by element: filtering a concatenation filters
      each part, so order and repeated elements are kept. */
  lemma {:induction false} KeepAppend<T(!new)>(xs: seq<T>, ys: seq<T>, s: set<T>)
    ensures Keep(xs + ys, s) == Keep(xs, s) + Keep(ys, s)
    decreases |xs|
  {
    if |xs| == 0 {
      assert xs + ys == ys;
    } else {
      assert (xs + ys)[0] == xs[0];
      assert (xs + ys)[1..] == xs[1..] + ys;
      KeepAppend(xs[1..], ys, s);
    }
  }

  lemma {:induction false} DropAppend<T(!new)>(xs: seq<T>, ys: seq<T>, s: set<T>)
    ensures Drop(xs + ys, s) == Drop(xs, s) + Drop(ys, s)
    decreases |xs|
  {
    if |xs| == 0 {
      assert xs + ys == ys;
    } else {
      assert (xs + ys)[0] == xs[0];
      assert (xs + ys)[1..] == xs[1..] + ys;
      DropAppend(xs[1..], ys, s);
    }
  }

  /** Filtering depends only on how the set treats the list's own elements. */
  lemma {:induction false} KeepSameOn<T(!new)>(xs: seq<T>, s1: set<T>, s2: set<T>)
    requires forall x :: x in xs ==> (x in s1 <==> x in s2)
    ensures Keep(xs, s1) == Keep(xs, s2)
    decreases |xs|
  {
    if |xs| > 0 {
      assert forall x :: x in xs[1..] ==> x in xs;
      KeepSameOn(xs[1..], s1, s2);
    }
  }

  /** Keeping a list's elements by a set that holds all of them keeps the
      whole list. */
  lemma {:induction false} KeepAll<T(!new)>(xs: seq<T>, s: set<T>)
    requires forall x :: x in xs ==> x in s
    ensures Keep(xs, s) == xs
    decreases |xs|
  {
    if |xs| > 0 {
      assert forall x :: x in xs[1..] ==> x in xs;
      KeepAll(xs[1..], s);
    }
  }
}

=== FILE: permissions.dfy ===
/** A dataset's permission records (`dataset.actions`) and the operations
    that read and rewrite them: `get_dataset_permissions`,
    `set_dataset_permissions` and `copy_dataset_permissions`. */
module Permissions {
  import opened Registry
  import opened Lists

  type RoleId = nat

  /** One action/dataset/role association: `role` is required for `action`
      on the dataset that owns the record. */
  datatype Record = Record(action: ActionId, role: RoleId)

  /** A dataset, reduced to its permission records in store order. */
  datatype Dataset = Dataset(records: seq<Record>)

  /** Action to the roles required for it, in record order. */
  type PermissionMap = map<ActionId, seq<RoleId>>

  /** The roles of the records for `a`, in record order. */
  function RolesFor(recs: seq<Record>, a: ActionId): (roles: seq<RoleId>)
    ensures forall r :: r in roles <==> Record(a, r) in recs
    ensures |roles| <= |recs|
    decreases |recs|
  {
    if |recs| == 0 then []
    else
      assert forall x :: x in recs <==> x == recs[0] || x in recs[1..];
      (if recs[0].action == a then [recs[0].role] else []) + RolesFor(recs[1..], a)
  }

  /** Duplicate-free records give duplicate-free role lists. */
  lemma {:induction false} RolesForNoDup(recs: seq<Record>, a: ActionId)
    requires NoDup(recs)
    ensures NoDup(RolesFor(recs, a))
    decreases |recs|
  {
    if |recs| > 0 {
      var rest := recs[1..];
      assert NoDup(rest) by {
        forall i, j | 0 <= i < j < |rest| ensures rest[i] != rest[j] {
          assert rest[i] == recs[i + 1] && rest[j] == recs[j + 1];
        }
      }
      RolesForNoDup(rest, a);
      if recs[0].action == a {
        assert recs[0] !in rest by {
          forall j | 0 <= j < |rest| ensures rest[j] != recs[0] {
            assert rest[j] == recs[j + 1];
          }
        }
        NoDupAppend([recs[0].role], RolesFor(rest, a));
      }
    }
  }

  /** The set of roles the dataset requires for `a`. */
  function RequiredRoles(d: Dataset, a: ActionId): set<RoleId> {
    set x | x in d.records && x.action == a :: x.role
  }

  lemma RequiredRolesAreRolesFor(d: Dataset, a: ActionId)
    ensures RequiredRoles(d, a) == Elems(RolesFor(d.records, a))
  {
    forall r | r in RequiredRoles(d, a) ensures r in RolesFor(d.records, a) {
      var x :| x in d.records && x.action == a && x.role == r;
      assert x == Record(a, r);
    }
  }

  /** Every registered action mapped to no roles. */
  function BlankPermissions(): (perms: PermissionMap)
    ensures perms.Keys == AllActionSet
  {
    map a | a in AllActionSet :: []
  }

  /** The record loop of `get_dataset_permissions`: each record appends its
      role to its action's list. */
  function Collect(recs: seq<Record>): (perms: PermissionMap)
    ensures perms.Keys == AllActionSet
    decreases |recs|
  {
    if |recs| == 0 then BlankPermissions()
    else
      var perms := Collect(recs[..|recs| - 1]);
      var last := recs[|recs| - 1];
      AllRegistered(last.action);
      perms[last.action := perms[last.action] + [last.role]]
  }

  lemma {:induction false} RolesForAppend(xs: seq<Record>, ys: seq<Record>, a: ActionId)
    ensures RolesFor(xs + ys, a) == RolesFor(xs, a) + RolesFor(ys, a)
    decreases |xs|
  {
    if |xs| > 0 {
      assert (xs + ys)[1..] == xs[1..] + ys;
      RolesForAppend(xs[1..], ys, a);
    } else {
      assert xs + ys == ys;
    }
  }

  lemma {:induction false} CollectIsRolesFor(recs: seq<Record>)
    ensures forall a :: a in Collect(recs) && Collect(recs)[a] == RolesFor(recs, a)
    decreases |recs|
  {
    if |recs| == 0 {
      forall a ensures a in Collect(recs) { AllRegistered(a); }
    } else {
      var init := recs[..|recs| - 1];
      var last := recs[|recs| - 1];
      CollectIsRolesFor(init);
      assert recs == init + [last];
      forall a ensures a in Collect(recs) && Collect(recs)[a] == RolesFor(recs, a) {
        RolesForAppend(init, [last], a);
      }
    }
  }

  /** `get_dataset_permissions`: every registered action is a key, and each
      maps to exactly the roles of that action's records, in record order
      (so actions without records map to the empty list). */
  function GetDatasetPermissions(d: Dataset): (perms: PermissionMap)
    ensures perms.Keys == AllActionSet
    ensures forall a :: a in perms && perms[a] == RolesFor(d.records, a)
  {
    CollectIsRolesFor(d.records);
    Collect(d.records)
  }

  /** Records whose action is not among `incoming`, in order. */
  function Untouched(recs: seq<Record>, incoming: set<ActionId>): (kept: seq<Record>)
    ensures forall x :: x in kept <==> x in recs && x.action !in incoming
    decreases |recs|
  {
    if |recs| == 0 then []
    else
      assert forall x :: x in recs <==> x == recs[0] || x in recs[1..];
      (if recs[0].action in incoming then [] else [recs[0]]) + Untouched(recs[1..], incoming)
  }

  /** One record per role, all for action `a`. */
  function RecordsOf(a: ActionId, roles: seq<RoleId>): (recs: seq<Record>)
    ensures |recs| == |roles|
    decreases |roles|
  {
    if |roles| == 0 then [] else [Record(a, roles[0])] + RecordsOf(a, roles[1..])
  }

  /** The records created for each action of `actions` that `incoming` maps. */
  function NewRecords(actions: seq<ActionId>, incoming: PermissionMap): seq<Record>
    decreases |actions|
  {
    if |actions| == 0 then []
    else
      (if actions[0] in incoming then RecordsOf(actions[0], incoming[actions[0]]) else [])
      + NewRecords(actions[1..], incoming)
  }

  lemma {:induction false} RolesForRecordsOf(b: ActionId, roles: seq<RoleId>, a: ActionId)
    ensures RolesFor(RecordsOf(b, roles), a) == if a == b then roles else []
    decreases |roles|
  {
    if |roles| > 0 {
      var recs := RecordsOf(b, roles);
      assert recs[0] == Record(b, roles[0]);
      assert recs[1..] == RecordsOf(b, roles[1..]);
      RolesForRecordsOf(b, roles[1..], a);
      if a == b {
        assert RolesFor(recs, a) == [roles[0]] + roles[1..];
      }
    }
  }

  lemma {:induction false} RolesForNewRecords(actions: seq<ActionId>, incoming: PermissionMap, a: ActionId)
    requires NoDup(actions)
    ensures RolesFor(NewRecords(actions, incoming), a)
         == if a in actions && a in incoming then incoming[a] else []
    decreases |actions|
  {
    if |actions| > 0 {
      var b := actions[0];
      var rest := actions[1..];
      var head := if b in incoming then RecordsOf(b, incoming[b]) else [];
      assert NoDup(rest) && b !in rest by {
        forall i, j | 0 <= i < j < |rest| ensures rest[i] != rest[j] {
          assert rest[i] == actions[i + 1] && rest[j] == actions[j + 1];
        }
        forall j | 0 <= j < |rest| ensures rest[j] != b {
          assert rest[j] == actions[j + 1];
        }
      }
      RolesForNewRecords(rest, incoming, a);
      assert NewRecords(actions, incoming) == head + NewRecords(rest, incoming);
      RolesForAppend(head, NewRecords(rest, incoming), a);
      if b in incoming {
        RolesForRecordsOf(b, incoming[b], a);
      }
      assert a in actions <==> a == b || a in rest;
    }
  }

  lemma {:induction false} RolesForUntouched(recs: seq<Record>, incoming: set<ActionId>, a: ActionId)
    ensures RolesFor(Untouched(recs, incoming), a) == if a in incoming then [] else RolesFor(recs, a)
    decreases |recs|
  {
    if |recs| > 0 {
      RolesForUntouched(recs[1..], incoming, a);
      var head := if recs[0].action in incoming then [] else [recs[0]];
      RolesForAppend(head, Untouched(recs[1..], incoming), a);
    }
  }

  /** `set_dataset_permissions`, a partial update: records of actions not in
      `incoming` are left as they are; each incoming action's records are
      replaced by one record per supplied role (an empty list clears it).
      New records are appended in registry order. */
  function SetDatasetPermissions(d: Dataset, incoming: PermissionMap): (r: Dataset)
    ensures forall a :: a in incoming ==> RolesFor(r.records, a) == incoming[a]
    ensures forall a :: a !in incoming ==> RolesFor(r.records, a) == RolesFor(d.records, a)
    ensures forall x :: x in d.records && x.action !in incoming ==> x in r.records
  {
    var kept := Untouched(d.records, incoming.Keys);
    var added := NewRecords(AllActions, incoming);
    assert forall a :: RolesFor(kept + added, a) == if a in incoming then incoming[a] else RolesFor(d.records, a) by {
      forall a ensures RolesFor(kept + added, a) == if a in incoming then incoming[a] else RolesFor(d.records, a) {
        SetDatasetPermissionsRoles(d.records, incoming, a);
      }
    }
    Dataset(kept + added)
  }

  /** The roles of one action after the delete-then-create of a partial
      update. */
  lemma SetDatasetPermissionsRoles(recs: seq<Record>, incoming: PermissionMap, a: ActionId)
    ensures RolesFor(Untouched(recs, incoming.Keys) + NewRecords(AllActions, incoming), a)
         == if a in incoming then incoming[a] else RolesFor(recs, a)
  {
    var kept := Untouched(recs, incoming.Keys);
    var added := NewRecords(AllActions, incoming);
    RolesForAppend(kept, added, a);
    RolesForUntouched(recs, incoming.Keys, a);
    RolesForNewRecords(AllActions, incoming, a);
    AllRegistered(a);
  }

  /** `copy_dataset_permissions`: `dst` is rewritten with the full
      permission map of `src`, so afterwards it carries exactly `src`'s
      roles for every action, whatever it carried before. */
  function CopyDatasetPermissions(src: Dataset, dst: Dataset): (r: Dataset)
    ensures forall a :: RolesFor(r.records, a) == RolesFor(src.records, a)
    ensures GetDatasetPermissions(r) == GetDatasetPermissions(src)
  {
    SetDatasetPermissions(dst, GetDatasetPermissions(src))
  }
}

=== FILE: registry.dfy ===
/** The fixed catalogue of permitted actions (`RBACAgent.permitted_actions`)
    and the lookups over it. */
module Registry {
  import opened Results

  /** How an action composes: a grant action is closed until a role opens
      it, a restrict action is open until a role requirement closes it. */
  datatype Model = Grant | Restrict

  /** The registry keys. */
  datatype ActionId = EditMetadata | ManagePermissions | Access

  /** A registry entry: action name, human-readable description, model. */
  datatype Action = Action(action: string, description: string, model: Model)

  const AllActions: seq<ActionId> := [EditMetadata, ManagePermissions, Access]

  const AllActionSet: set<ActionId> := {EditMetadata, ManagePermissions, Access}

  /** The catalogue is complete: every action is registered. */
  lemma AllRegistered(a: ActionId)
    ensures a in AllActionSet && a in AllActions
  {
    match a
    case EditMetadata =>
    case ManagePermissions =>
    case Access =>
  }

  /** The key an action is registered under. */
  function Key(a: ActionId): string {
    match a
    case EditMetadata => "DATASET_EDIT_METADATA"
    case ManagePermissions => "DATASET_MANAGE_PERMISSIONS"
    case Access => "DATASET_ACCESS"
  }

  /** The registry entry of an action. */
  function Info(a: ActionId): Action {
    match a
    case EditMetadata =>
      Action("edit metadata", "Role members can edit this dataset's metadata in the library", Grant)
    case ManagePermissions =>
      Action("manage permissions", "Role members can manage the roles associated with this dataset", Grant)
    case Access =>
      Action("access", "Role members can import this dataset into their history for analysis", Restrict)
  }

  /** `name` designates `a`, either as its key or as its action name. */
  predicate Names(name: string, a: ActionId) {
    Key(a) == name || Info(a).action == name
  }

  /** Scans `entries` in order for the first action `name` designates. */
  function FindAction(name: string, entries: seq<ActionId>): (r: Option<ActionId>)
    ensures r.Some? ==> r.value in entries && Names(name, r.value)
    ensures r.None? ==> forall a :: a in entries ==> !Names(name, a)
    decreases |entries|
  {
    if |entries| == 0 then None
    else if Names(name, entries[0]) then Some(entries[0])
    else FindAction(name, entries[1..])
  }

  /** `get_action`: the action whose key or action name is `name`, or
      `None` (the source's default). */
  function GetAction(name: string): (r: Option<ActionId>)
    ensures forall a :: r == Some(a) <==> Names(name, a)
  {
    NamesAreUnambiguous();
    FindAction(name, AllActions)
  }

  /** No string designates two different actions: keys and action names are
      pairwise distinct, so the scan order of the registry does not matter. */
  lemma NamesAreUnambiguous()
    ensures forall name, a, b :: Names(name, a) && Names(name, b) ==> a == b
  {
    forall name, a, b | Names(name, a) && Names(name, b)
      ensures a == b
    {
      NamedByLength(name, a);
      NamedByLength(name, b);
    }
  }

  /** Every key and action name has a length no other action's key or name
      has, so the length of a designating string determines the action. */
  lemma NamedByLength(name: string, a: ActionId)
    requires Names(name, a)
    ensures a == (if |name| == 21 || |name| == 13 then EditMetadata
                  else if |name| == 26 || |name| == 18 then ManagePermissions
                  else Access)
  {
    match a
    case EditMetadata =>
      assert |Key(a)| == 21 && |Info(a).action| == 13;
    case ManagePermissions =>
      assert |Key(a)| == 26 && |Info(a).action| == 18;
    case Access =>
      assert |Key(a)| == 14 && |Info(a).action| == 6;
  }

  /** `permitted_actions.get(key)`: lookup by key only. */
  function ByKey(key: string): (r: Option<ActionId>)
    ensures forall a :: r == Some(a) <==> Key(a) == key
  {
    if key == Key(EditMetadata) then Some(EditMetadata)
    else if key == Key(ManagePermissions) then Some(ManagePermissions)
    else if key == Key(Access) then Some(Access)
    else None
  }

  /** `convert_permitted_action_strings`: the actions named by the keys
      among `strs`, in order; strings that are not keys are dropped. */
  function ConvertPermittedActionStrings(strs: seq<string>): (r: seq<ActionId>)
    ensures forall a :: a in r <==> Key(a) in strs
    ensures |r| <= |strs|
    decreases |strs|
  {
    if |strs| == 0 then []
    else
      var rest := ConvertPermittedActionStrings(strs[1..]);
      assert forall s :: s in strs <==> s == strs[0] || s in strs[1..];
      match ByKey(strs[0])
      case Some(a) => [a] + rest
      case None => rest
  }

  /** The keys of a list of actions. */
  function Keys(acts: seq<ActionId>): (ks: seq<string>)
    ensures |ks| == |acts|
    decreases |acts|
  {
    if |acts| == 0 then [] else [Key(acts[0])] + Keys(acts[1..])
  }

  /** Converting the keys of any action list gives the list back: nothing a
      caller can name is lost, and nothing is reordered. */
  lemma {:induction false} ConvertKeysRoundTrip(acts: seq<ActionId>)
    ensures ConvertPermittedActionStrings(Keys(acts)) == acts
    decreases |acts|
  {
    if |acts| > 0 {
      ConvertKeysRoundTrip(acts[1..]);
      assert Keys(acts)[1..] == Keys(acts[1..]);
    }
  }

  /** Conversion works string by string: converting a concatenation
      converts each part. */
  lemma {:induction false} ConvertAppend(xs: seq<string>, ys: seq<string>)
    ensures ConvertPermittedActionStrings(xs + ys)
         == ConvertPermittedActionStrings(xs) + ConvertPermittedActionStrings(ys)
    decreases |xs|
  {
    if |xs| == 0 {
      assert xs + ys == ys;
    } else {
      assert (xs + ys)[0] == xs[0];
      assert (xs + ys)[1..] == xs[1..] + ys;
      ConvertAppend(xs[1..], ys);
    }
  }

  /** Strings that are not registry keys contribute nothing, wherever they
      occur. */
  lemma ConvertIgnoresUnknown(xs: seq<string>, junk: string, ys: seq<string>)
    requires ByKey(junk).None?
    ensures ConvertPermittedActionStrings(xs + [junk] + ys)
         == ConvertPermittedActionStrings(xs + ys)
  {
    var one: seq<string> := [junk];
    assert one[1..] == [];
    assert ConvertPermittedActionStrings(one) == [];
    ConvertAppend(xs + one, ys);
    ConvertAppend(xs, one);
    ConvertAppend(xs, ys);
  }

  /** The key prefix `get_permitted_actions` matches with: the filter with a
      trailing `_` appended unless it already ends in one. */
  function NormalisePrefix(filter: string): (p: string)
    ensures |p| > 0 && p[|p| - 1] == '_'
    ensures filter <= p && |p| <= |filter| + 1
    ensures |filter| > 0 && filter[|filter| - 1] == '_' ==> p == filter
  {
    if |filter| > 0 && filter[|filter| - 1] == '_' then filter else filter + "_"
  }

  /** Matching against the normalised prefix, stated on the raw filter. */
  lemma PrefixMatch(f: string, k: string)
    ensures NormalisePrefix(f) <= k <==>
              if |f| > 0 && f[|f| - 1] == '_' then f <= k else f + "_" <= k
    ensures NormalisePrefix(f) <= k ==> f <= k
  {
    var p := NormalisePrefix(f);
    if p <= k {
      assert k[..|f|] == p[..|f|];
    }
  }

  /** `get_permitted_actions`: all actions without a filter, otherwise the
      actions whose key starts with the normalised prefix. */
  function GetPermittedActions(filter: Option<string>): (r: set<ActionId>)
    ensures r <= AllActionSet
    ensures filter.None? ==> r == AllActionSet
    ensures filter.Some? ==> forall a :: a in r ==> filter.value <= Key(a)
    ensures filter.Some? ==> forall a :: a in r <==>
              if |filter.value| > 0 && filter.value[|filter.value| - 1] == '_'
              then filter.value <= Key(a) else filter.value + "_" <= Key(a)
  {
    match filter
    case None => AllActionSet
    case Some(f) =>
      var r := set a | a in AllActionSet && NormalisePrefix(f) <= Key(a);
      assert forall a :: (a in r <==> NormalisePrefix(f) <= Key(a)) && (a in r ==> f <= Key(a)) by {
        forall a ensures (a in r <==> NormalisePrefix(f) <= Key(a)) && (a in r ==> f <= Key(a)) {
          AllRegistered(a);
          PrefixMatch(f, Key(a));
        }
      }
      r
  }

  /** Normalising is idempotent, so passing an already normalised filter
      selects the same actions as passing the raw one. */
  lemma PermittedActionsNormaliseIdempotent(f: string)
    ensures GetPermittedActions(Some(NormalisePrefix(f))) == GetPermittedActions(Some(f))
  {
    assert NormalisePrefix(NormalisePrefix(f)) == NormalisePrefix(f);
  }

  /** The `DATASET` family is the whole registry. */
  lemma PermittedActionsDatasetFamily()
    ensures GetPermittedActions(Some("DATASET")) == AllActionSet
  {
    forall a | a in AllActionSet
      ensures "DATASET_" <= Key(a)
    {
      assert Key(a)[..8] == "DATASET_";
    }
  }

  /** A full key is not a family prefix: the appended `_` makes it longer
      than its own key and different from every other key, so it selects
      nothing. */
  lemma PermittedActionsFullKeySelectsNothing(b: ActionId)
    ensures GetPermittedActions(Some(Key(b))) == {}
  {
  }
}

=== FILE: results.dfy ===
/** Optional values and error-carrying results, used wherever the source
    returns `None` or raises instead of producing a value. */
module Results {

  datatype Option<+T> = None | Some(value: T)

  datatype Result<+T, +E> = Ok(value: T) | Err(error: E)
}

=== FILE: sharing.dfy ===
/** `privately_share_dataset`, over an abstract role store: roles by id,
    user-role memberships in creation order, and the next free role id. */
module Sharing {
  import opened Results
  import opened Registry
  import opened Lists
  import opened Permissions
  import opened Decision

  type UserId = nat

  datatype RoleType = Private | SharingRole | Generic

  datatype Role = Role(name: string, kind: RoleType)

  datatype Account = Account(id: UserId, email: string)

  /** The part of the store the operation reads and writes. */
  datatype Store = Store(roles: map<RoleId, Role>, memberships: seq<(UserId, RoleId)>, nextRole: RoleId)

  /** Store consistency: every membership names an existing role and every
      existing role id is below the next one handed out. */
  ghost predicate Valid(st: Store) {
    && (forall r :: r in st.roles ==> r < st.nextRole)
    && (forall i :: 0 <= i < |st.memberships| ==> st.memberships[i].1 in st.roles)
  }

  /** `user.roles`: the roles of `u`, in membership order. */
  function RolesOfUser(ms: seq<(UserId, RoleId)>, u: UserId): (roles: seq<RoleId>)
    ensures forall r :: r in roles <==> (u, r) in ms
    decreases |ms|
  {
    if |ms| == 0 then []
    else
      assert forall m :: m in ms <==> m == ms[0] || m in ms[1..];
      (if ms[0].0 == u then [ms[0].1] else []) + RolesOfUser(ms[1..], u)
  }

  /** `role.users`: the members of `role`, in membership order. */
  function MembersOf(ms: seq<(UserId, RoleId)>, role: RoleId): (users: seq<UserId>)
    ensures forall u :: u in users <==> (u, role) in ms
    decreases |ms|
  {
    if |ms| == 0 then []
    else
      assert forall m :: m in ms <==> m == ms[0] || m in ms[1..];
      (if ms[0].1 == role then [ms[0].0] else []) + MembersOf(ms[1..], role)
  }

  /** The ids of the existing sharing roles. */
  function SharingIds(st: Store): set<RoleId> {
    set r | r in st.roles && st.roles[r].kind == SharingRole
  }

  /** The sharing roles of `u`, in membership order. */
  function SharingRolesOf(st: Store, u: UserId): seq<RoleId> {
    Keep(RolesOfUser(st.memberships, u), SharingIds(st))
  }

  function AccountIds(users: seq<Account>): set<UserId> {
    set u | u in users :: u.id
  }

  /** `r` is a sharing role every one of `users` belongs to. */
  ghost predicate SharedByAll(st: Store, users: seq<Account>, r: RoleId) {
    r in SharingIds(st) && forall i :: 0 <= i < |users| ==> (users[i].id, r) in st.memberships
  }

  /** The sharing roles every one of `users` belongs to. */
  ghost function SharedSet(st: Store, users: seq<Account>): set<RoleId> {
    set r | r in SharingIds(st) && SharedByAll(st, users, r)
  }

  /** A sharing role is held by all the users exactly when each of them is
      among its members. */
  lemma SharedByAllIff(st: Store, users: seq<Account>, r: RoleId)
    requires r in SharingIds(st)
    ensures SharedByAll(st, users, r) <==> AccountIds(users) <= Elems(MembersOf(st.memberships, r))
  {
    if SharedByAll(st, users, r) {
      forall u | u in AccountIds(users) ensures u in MembersOf(st.memberships, r) {
        var i :| 0 <= i < |users| && users[i].id == u;
      }
    }
    if AccountIds(users) <= Elems(MembersOf(st.memberships, r)) {
      forall i | 0 <= i < |users| ensures (users[i].id, r) in st.memberships {
        assert users[i].id in AccountIds(users);
      }
    }
  }

  /** The intersection loop: `None` while no user has been seen, then the
      first user's sharing roles narrowed, user by user, to those already
      present. It yields exactly the sharing roles all the users hold, in
      the order of the last user's memberships. */
  function SharedSharingRoles(st: Store, users: seq<Account>): (inter: Option<seq<RoleId>>)
    ensures inter.None? <==> |users| == 0
    ensures inter.Some? ==> forall r :: r in inter.value <==> SharedByAll(st, users, r)
    ensures inter.Some? ==> inter.value == Keep(SharingRolesOf(st, users[|users| - 1].id), SharedSet(st, users))
    decreases |users|
  {
    if |users| == 0 then None
    else
      var init := users[..|users| - 1];
      var last := users[|users| - 1];
      var roles := SharingRolesOf(st, last.id);
      assert forall i :: 0 <= i < |init| ==> init[i] == users[i];
      assert forall r :: SharedByAll(st, users, r) <==>
        (|init| == 0 || SharedByAll(st, init, r)) && r in SharingIds(st) && (last.id, r) in st.memberships;
      match SharedSharingRoles(st, init)
      case None =>
        KeepAll(roles, SharedSet(st, users));
        Some(roles)
      case Some(prev) =>
        KeepSameOn(roles, Elems(prev), SharedSet(st, users));
        Some(Keep(roles, Elems(prev)))
  }

  /** Every member of `role` is among `ids`. */
  predicate OnlyAmong(st: Store, role: RoleId, ids: set<UserId>) {
    Drop(MembersOf(st.memberships, role), ids) == []
  }

  lemma OnlyAmongIff(st: Store, role: RoleId, ids: set<UserId>)
    ensures OnlyAmong(st, role, ids) <==> Elems(MembersOf(st.memberships, role)) <= ids
  {
    var extra := Drop(MembersOf(st.memberships, role), ids);
    if extra != [] {
      assert extra[0] in extra;
    }
  }

  /** The reuse search: the position of the first candidate whose members
      are all among `ids`, or `|cands|` when none qualifies. */
  function FirstExclusive(st: Store, cands: seq<RoleId>, ids: set<UserId>): (i: nat)
    ensures i <= |cands|
    ensures i < |cands| ==> OnlyAmong(st, cands[i], ids)
    ensures forall j :: 0 <= j < i ==> !OnlyAmong(st, cands[j], ids)
    decreases |cands|
  {
    if |cands| == 0 || OnlyAmong(st, cands[0], ids) then 0
    else
      var k := FirstExclusive(st, cands[1..], ids);
      k + 1
  }

  /** The display name of a new sharing role. */
  function JoinEmails(users: seq<Account>): string
    decreases |users|
  {
    if |users| == 0 then ""
    else if |users| == 1 then users[0].email
    else users[0].email + ", " + JoinEmails(users[1..])
  }

  /** One membership of `role` per user, in order. */
  function MembershipsOf(users: seq<Account>, role: RoleId): (ms: seq<(UserId, RoleId)>)
    ensures forall u, r :: (u, r) in ms <==> r == role && u in AccountIds(users)
    decreases |users|
  {
    if |users| == 0 then []
    else
      assert forall x :: x in users <==> x == users[0] || x in users[1..];
      [(users[0].id, role)] + MembershipsOf(users[1..], role)
  }

  /** What the share did: the store and dataset afterwards, and the role
      that now guards access. */
  datatype Shared = Shared(store: Store, dataset: Dataset, role: RoleId)

  /** A new sharing role holding exactly `users`, under the next free id. */
  function CreateSharingRole(st: Store, users: seq<Account>): (r: (Store, RoleId))
    requires Valid(st)
    ensures Valid(r.0)
    ensures r.1 !in st.roles && r.1 in r.0.roles && r.0.roles[r.1].kind == SharingRole
    ensures r.0.roles == st.roles[r.1 := r.0.roles[r.1]]
    ensures st.memberships <= r.0.memberships
    ensures forall u, x :: (u, x) in r.0.memberships <==>
              (u, x) in st.memberships || (x == r.1 && u in AccountIds(users))
  {
    var id := st.nextRole;
    var role := Role("Sharing role for: " + JoinEmails(users), SharingRole);
    var ms := st.memberships + MembershipsOf(users, id);
    (Store(st.roles[id := role], ms, id + 1), id)
  }

  /** Some existing sharing role has exactly `users` as its members. */
  ghost predicate HasExactRole(st: Store, users: seq<Account>) {
    exists x :: x in SharingIds(st) && Elems(MembersOf(st.memberships, x)) == AccountIds(users)
  }

  /** The first role of `xs` whose members are exactly `ids`. */
  function FirstExact(st: Store, xs: seq<RoleId>, ids: set<UserId>): (r: Option<RoleId>)
    ensures r.Some? ==> r.value in xs && Elems(MembersOf(st.memberships, r.value)) == ids
    ensures r.None? ==> forall x :: x in xs ==> Elems(MembersOf(st.memberships, x)) != ids
    decreases |xs|
  {
    if |xs| == 0 then None
    else if Elems(MembersOf(st.memberships, xs[0])) == ids then Some(xs[0])
    else
      assert forall x :: x in xs ==> x == xs[0] || x in xs[1..];
      FirstExact(st, xs[1..], ids)
  }

  /** Searching a filtered list for the first role without outside members
      finds the first role of the unfiltered list whose members are exactly
      `ids`, provided the filter keeps, among the roles without outside
      members, exactly those whose members are all of `ids`. */
  lemma {:induction false} FirstExclusiveIsFirstExact(st: Store, xs: seq<RoleId>, shared: set<RoleId>, ids: set<UserId>)
    requires forall x :: x in xs ==>
               (Elems(MembersOf(st.memberships, x)) == ids <==> x in shared && OnlyAmong(st, x, ids))
    ensures var cands := Keep(xs, shared);
            var i := FirstExclusive(st, cands, ids);
            (if i < |cands| then Some(cands[i]) else None) == FirstExact(st, xs, ids)
    decreases |xs|
  {
    if |xs| > 0 {
      var x := xs[0];
      var rest := Keep(xs[1..], shared);
      assert forall y :: y in xs[1..] ==> y in xs;
      FirstExclusiveIsFirstExact(st, xs[1..], shared, ids);
      if x in shared {
        var cands := [x] + rest;
        assert Keep(xs, shared) == cands;
        assert cands[0] == x && cands[1..] == rest;
      } else {
        assert Keep(xs, shared) == rest;
      }
    }
  }

  /** A sharing role's members are exactly the users when it is held by all
      of them and has no other member. */
  lemma ExactIffSharedAndOnly(st: Store, users: seq<Account>, x: RoleId)
    requires x in SharingIds(st)
    ensures Elems(MembersOf(st.memberships, x)) == AccountIds(users)
        <==> x in SharedSet(st, users) && OnlyAmong(st, x, AccountIds(users))
  {
    SharedByAllIff(st, users, x);
    OnlyAmongIff(st, x, AccountIds(users));
  }

  /** The reuse search of `privately_share_dataset`: the first role of the
      intersection whose members are all among the users. That is the first
      of the last user's sharing roles whose members are exactly the users,
      and a role is found exactly when some sharing role has precisely the
      users as members. */
  function ReusableRole(st: Store, users: seq<Account>): (r: Option<RoleId>)
    ensures r.Some? ==> r.value in SharingIds(st)
                        && Elems(MembersOf(st.memberships, r.value)) == AccountIds(users)
    ensures r.Some? <==> |users| > 0 && HasExactRole(st, users)
    ensures |users| > 0 ==> r == FirstExact(st, SharingRolesOf(st, users[|users| - 1].id), AccountIds(users))
  {
    var own := if |users| > 0 then SharingRolesOf(st, users[|users| - 1].id) else [];
    assert forall x :: x in own ==> (Elems(MembersOf(st.memberships, x)) == AccountIds(users)
                                     <==> x in SharedSet(st, users) && OnlyAmong(st, x, AccountIds(users))) by {
      forall x | x in own
        ensures Elems(MembersOf(st.memberships, x)) == AccountIds(users)
                <==> x in SharedSet(st, users) && OnlyAmong(st, x, AccountIds(users))
      {
        ExactIffSharedAndOnly(st, users, x);
      }
    }
    FirstExclusiveIsFirstExact(st, own, SharedSet(st, users), AccountIds(users));
    var inter := SharedSharingRoles(st, users);
    var cands := if inter.Some? then inter.value else [];
    var i := FirstExclusive(st, cands, AccountIds(users));
    var reuse := if i < |cands| then Some(cands[i]) else None;
    if reuse.Some? then
      ReusedRoleMembers(st, users, reuse.value);
      reuse
    else
      assert forall x :: x in SharingIds(st) && Elems(MembersOf(st.memberships, x)) == AccountIds(users)
                         ==> |users| == 0 by {
        forall x | x in SharingIds(st) && Elems(MembersOf(st.memberships, x)) == AccountIds(users)
          ensures |users| == 0
        {
          ExactRoleIsCandidate(st, users, x);
        }
      }
      None
  }

  /** When two sharing roles both have exactly the users as members, the one
      the last user joined first is reused, not the one with the lower id. */
  lemma ReuseFollowsMembershipOrder()
    ensures var st := Store(map[0 := Role("a", SharingRole), 1 := Role("b", SharingRole)], [(5, 1), (5, 0)], 2);
            ReusableRole(st, [Account(5, "e")]) == Some(1)
  {
    var st := Store(map[0 := Role("a", SharingRole), 1 := Role("b", SharingRole)], [(5, 1), (5, 0)], 2);
    var users := [Account(5, "e")];
    assert AccountIds(users) == {5};
    assert 1 in SharingIds(st) && 0 in SharingIds(st);
    assert RolesOfUser(st.memberships, 5) == [1, 0];
    assert SharingRolesOf(st, 5) == [1, 0];
    assert MembersOf(st.memberships, 1) == [5];
    assert Elems(MembersOf(st.memberships, 1)) == {5};
  }

  /** A sharing role whose members are exactly the (non-empty) users survives
      the intersection and passes the exclusiveness test, so the search
      cannot come back empty. */
  lemma ExactRoleIsCandidate(st: Store, users: seq<Account>, x: RoleId)
    requires x in SharingIds(st) && Elems(MembersOf(st.memberships, x)) == AccountIds(users)
    ensures |users| > 0 ==> var cands := SharedSharingRoles(st, users).value;
                            FirstExclusive(st, cands, AccountIds(users)) < |cands|
  {
    if |users| > 0 {
      forall i | 0 <= i < |users| ensures (users[i].id, x) in st.memberships {
        assert users[i].id in AccountIds(users);
      }
      assert SharedByAll(st, users, x);
      OnlyAmongIff(st, x, AccountIds(users));
    }
  }

  /** The role a share guards access with: the reusable sharing role if
      there is one, otherwise a newly created one. The store changes exactly
      when a role is created. */
  function SharingRoleFor(st: Store, users: seq<Account>): (r: (Store, RoleId))
    requires Valid(st)
    ensures Valid(r.0)
    ensures r.1 in r.0.roles && r.0.roles[r.1].kind == SharingRole
    ensures Elems(MembersOf(r.0.memberships, r.1)) == AccountIds(users)
    ensures forall x :: x in st.roles ==> x in r.0.roles && r.0.roles[x] == st.roles[x]
    ensures forall x :: x in st.roles ==> MembersOf(r.0.memberships, x) == MembersOf(st.memberships, x)
    ensures r.0 == st <==> |users| > 0 && HasExactRole(st, users)
    ensures ReusableRole(st, users).Some? ==> r.1 == ReusableRole(st, users).value
    ensures ReusableRole(st, users).None? ==> r.1 !in st.roles
  {
    var reuse := ReusableRole(st, users);
    if reuse.Some? then
      (st, reuse.value)
    else
      var (st', role) := CreateSharingRole(st, users);
      CreatedRoleMembers(st, users);
      assert role in st'.roles && role !in st.roles;
      (st', role)
  }

  /** The dataset with `role` as its only access requirement and every
      other action's records as they were. */
  function RestrictAccessTo(d: Dataset, role: RoleId): (r: Dataset)
    ensures RolesFor(r.records, Access) == [role]
    ensures forall a :: a != Access ==> RolesFor(r.records, a) == RolesFor(d.records, a)
  {
    SetDatasetPermissions(d, map[Access := [role]])
  }

  /** `privately_share_dataset`: reuse the first sharing role common to all
      users whose members are all among them, otherwise create one; then make
      it the only role required for `DATASET_ACCESS`. */
  function PrivatelyShareDataset(st: Store, d: Dataset, users: seq<Account>): (res: Shared)
    requires Valid(st)
    ensures Valid(res.store)
    ensures res.role in res.store.roles && res.store.roles[res.role].kind == SharingRole
    ensures Elems(MembersOf(res.store.memberships, res.role)) == AccountIds(users)
    ensures RolesFor(res.dataset.records, Access) == [res.role]
    ensures forall a :: a != Access ==> RolesFor(res.dataset.records, a) == RolesFor(d.records, a)
    ensures forall r :: r in st.roles ==> r in res.store.roles && res.store.roles[r] == st.roles[r]
    ensures forall r :: r in st.roles ==> MembersOf(res.store.memberships, r) == MembersOf(st.memberships, r)
    ensures res.store == st <==> |users| > 0 && HasExactRole(st, users)
    ensures ReusableRole(st, users).Some? ==> res.role == ReusableRole(st, users).value
    ensures ReusableRole(st, users).None? ==> res.role !in st.roles
  {
    var (store, role) := SharingRoleFor(st, users);
    Shared(store, RestrictAccessTo(d, role), role)
  }

  /** A reused role is common to all the users and has no other member, so
      its members are exactly the users. */
  lemma ReusedRoleMembers(st: Store, users: seq<Account>, role: RoleId)
    requires SharedByAll(st, users, role)
    requires OnlyAmong(st, role, AccountIds(users))
    ensures role in SharingIds(st)
    ensures Elems(MembersOf(st.memberships, role)) == AccountIds(users)
  {
    OnlyAmongIff(st, role, AccountIds(users));
    forall u | u in AccountIds(users) ensures u in MembersOf(st.memberships, role) {
      var i :| 0 <= i < |users| && users[i].id == u;
    }
  }

  /** A created role has exactly the users as members and leaves the
      members of every existing role alone. */
  lemma CreatedRoleMembers(st: Store, users: seq<Account>)
    requires Valid(st)
    ensures var (st', role) := CreateSharingRole(st, users);
            && Elems(MembersOf(st'.memberships, role)) == AccountIds(users)
            && forall r :: r in st.roles ==> MembersOf(st'.memberships, r) == MembersOf(st.memberships, r)
  {
    var (st', role) := CreateSharingRole(st, users);
    var ms := MembershipsOf(users, role);
    assert st'.memberships == st.memberships + ms;
    forall r | r in st.roles
      ensures MembersOf(st'.memberships, r) == MembersOf(st.memberships, r)
    {
      MembersOfAppendOther(st.memberships, ms, r);
    }
  }

  /** Memberships of other roles do not change a role's member list. */
  lemma {:induction false} MembersOfAppendOther(ms: seq<(UserId, RoleId)>, extra: seq<(UserId, RoleId)>, r: RoleId)
    requires forall i :: 0 <= i < |extra| ==> extra[i].1 != r
    ensures MembersOf(ms + extra, r) == MembersOf(ms, r)
    decreases |ms|
  {
    if |ms| == 0 {
      MembersOfNone(extra, r);
      assert ms + extra == extra;
    } else {
      assert (ms + extra)[1..] == ms[1..] + extra;
      MembersOfAppendOther(ms[1..], extra, r);
    }
  }

  lemma {:induction false} MembersOfNone(ms: seq<(UserId, RoleId)>, r: RoleId)
    requires forall i :: 0 <= i < |ms| ==> ms[i].1 != r
    ensures MembersOf(ms, r) == []
    decreases |ms|
  {
    if |ms| > 0 {
      MembersOfNone(ms[1..], r);
    }
  }

  /** After sharing, a user may access the dataset through their direct
      roles exactly when they are one of the users it was shared with. */
  lemma ShareGrantsAccessExactly(st: Store, d: Dataset, users: seq<Account>, u: UserId)
    requires Valid(st)
    ensures var res := PrivatelyShareDataset(st, d, users);
            AllowDatasetAction(User(Elems(RolesOfUser(res.store.memberships, u))), Access, res.dataset)
            <==> u in AccountIds(users)
  {
    var res := PrivatelyShareDataset(st, d, users);
    var held := Elems(RolesOfUser(res.store.memberships, u));
    RequiredRolesAreRolesFor(res.dataset, Access);
    assert RequiredRoles(res.dataset, Access) == {res.role};
    RecordedRolesAreConjunctive(held, Access, res.dataset);
    assert res.role in held <==> u in Elems(MembersOf(res.store.memberships, res.role));
  }

  /** Anonymous subjects lose access to a privately shared dataset. */
  lemma ShareExcludesAnonymous(st: Store, d: Dataset, users: seq<Account>)
    requires Valid(st)
    ensures !AllowDatasetAction(Anonymous, Access, PrivatelyShareDataset(st, d, users).dataset)
  {
    var res := PrivatelyShareDataset(st, d, users);
    RequiredRolesAreRolesFor(res.dataset, Access);
    assert res.role in RequiredRoles(res.dataset, Access);
    AnonymousOnlyOpenAccess(Access, res.dataset);
  }
}
